=== FILE: README.md ===
# Redis partition router of the iCache service, in Dafny

This project models the core of `CacheServiceImpl`, the cache service of
iCache. The service routes each `setString`/`getString` key to one of
several Redis instances. It keeps two maps:

- a registry from each Redis instance (`ZNodeServiceData`) to its
  `RedisClient`;
- a partition table from partition number to client.

It rebuilds both when the orchestration client reports that the service
became ready or that its dependences changed. It clears them when the
service stops being ready. Requests pass a gate first: the service must be
running and its configuration must have been accepted.

The model is functional. The router is one immutable record (`Router`):
`registry`, `table`, `partitionMask`, a handle counter that stands in for
`new RedisClient(...)`, and a log counting how often each client's pool
was closed. Every callback is one pure transition on that record.

Modules, one per file:

- `JavaLang` (`javalang.dfy`): Java `int` wrap-around, the truncating `%`,
  and `String.hashCode`.
- `ZNode` (`znode.dfy`): instance identity and the dependence snapshot. A
  Java `Set` or `Map` that the code iterates is given as a sequence in
  iteration order.
- `Membership` (`membership.dfy`): the added/removed classification.
- `PartitionRouter` (`router.dfy`): client reconciliation, table rebuild,
  clear and lookup, and the router invariant `Valid`.
- `Watcher` (`watcher.dfy`): the READY/NOTREADY state machine and the
  DEPCHANGE event.
- `CacheService` (`service.dfy`): run/config flags, the config callback,
  lifecycle calls, and the request facade with its connection protocol.
- `Scenarios` (`scenarios.dfy`): concrete membership changes.
- `Options` (`options.dfy`): `Option`/`Result` for `null` and exceptions.

Quirks of the code that the model keeps:

- `partitionMask` is only ever `-1`. Java's `x % -1` is `0`, so every
  non-null key resolves to partition 0 (`LookupUsesPartitionZero`).
- DEPCHANGE rebuilds even while the watcher is NOTREADY
  (`DepChangeWhileNotReady`).
- Several registered instances can share a service name. The table then
  uses whichever one the registry's hash-map iteration yields first. The
  model makes a fixed but unspecified choice (`FirstNamed`). Exact
  resolution is proved for registries with one instance per name
  (`ResolvesToNamedInstance`).
- The request gate reads only `isRunning && isConfiged`, not the watcher
  state. After the watcher goes NOTREADY, a request fails with
  `RedisError` (the key no longer routes), not with `ServiceUnavailable`
  (`NotReadyWatcherGivesRedisError`).
- The number of partitions is not read from configuration: the mask is a
  field initialised to -1 and never assigned any value other than -1
  (`CacheServiceImpl.java` lines 92 and 443). The partition number
  `hashCode() % -1` could be negative in principle for a different mask,
  since `hashCode()` can be negative (`HashCodeCanBeNegative`), but with
  -1 it is always 0.
- On every path past the lookup, the connection is returned, even when
  `getJedisConnection` returned false. An interrupted acquisition is
  swallowed: `setString` returns normally and `getString` returns `null`.

## Model

| member | source | states |
|---|---|---|
| `JavaLang.Rem` | src/main/java/yanbinwa/iCache/service/CacheServiceImpl.java:302 | Java `%`: the truncated-division remainder, smaller in magnitude than the divisor and carrying the dividend's sign |
| `JavaLang.HashCode` | src/main/java/yanbinwa/iCache/service/CacheServiceImpl.java:302 | `key.hashCode()` is always a 32-bit int |
| `JavaLang.HashCodeCanBeNegative` | src/main/java/yanbinwa/iCache/service/CacheServiceImpl.java:302 | the hash of a six-letter key is already negative, so the partition expression gets negative dividends |
| `Membership.Added` | src/main/java/yanbinwa/iCache/service/CacheServiceImpl.java:336-344 | the instances to add are exactly the observed ones that hold no client; no duplicates if the observed set has none |
| `Membership.Diff` | src/main/java/yanbinwa/iCache/service/CacheServiceImpl.java:336-352 | the two classification loops compute added = observed minus registered and removed = registered minus observed; removed has no repeats and is disjoint from added |
| `Membership.DiffPartitions` | src/main/java/yanbinwa/iCache/service/CacheServiceImpl.java:336-352 | added and removed are disjoint; registered minus removed, plus added, is exactly the observed set |
| `PartitionRouter.InitialValid` | src/main/java/yanbinwa/iCache/service/CacheServiceImpl.java:90-92 | the empty maps with mask -1 satisfy the router invariant |
| `PartitionRouter.Closing` | src/main/java/yanbinwa/iCache/service/CacheServiceImpl.java:371-380 | the delete loop closes exactly the clients of the removed instances that hold one, each once |
| `PartitionRouter.UpdateClients` | src/main/java/yanbinwa/iCache/service/CacheServiceImpl.java:365-398 | the new registry holds the old instances minus the removed ones plus the added ones; untouched survivors keep their client, every other entry gets a fresh handle distinct from the others, exactly the removed clients are closed, and the table and mask are untouched |
| `PartitionRouter.AddClients` | src/main/java/yanbinwa/iCache/service/CacheServiceImpl.java:381-391 | the add loop gives every listed instance not yet present a new, distinct handle from the counter; present instances keep their client |
| `PartitionRouter.FirstNamed` | src/main/java/yanbinwa/iCache/service/CacheServiceImpl.java:409-419 | a service name resolves exactly when some registered instance carries it, and then to such an instance |
| `PartitionRouter.BuildTable` | src/main/java/yanbinwa/iCache/service/CacheServiceImpl.java:400-429 | a partition is in the fresh table iff some claim listing it names a registered service; every entry is a registered client |
| `PartitionRouter.BuildTableLastClaim` | src/main/java/yanbinwa/iCache/service/CacheServiceImpl.java:405-423 | each partition maps to the client of the instance named by the last resolvable claim listing it |
| `PartitionRouter.ResolvesToNamedInstance` | src/main/java/yanbinwa/iCache/service/CacheServiceImpl.java:409-419 | with one instance per service name, a claimed partition maps to that instance's client |
| `PartitionRouter.Rebuild` | src/main/java/yanbinwa/iCache/service/CacheServiceImpl.java:307-363 | a null snapshot, missing REDIS decorate, null partition map or missing "redis" group leave the router unchanged; otherwise the registry keys become the observed set, survivors keep their client, new clients are fresh, exactly the vanished clients are closed, the table holds exactly the claimed partitions, and the mask never changes |
| `PartitionRouter.RebuildValid` | src/main/java/yanbinwa/iCache/service/CacheServiceImpl.java:336-398 | a rebuild keeps the invariant (one private open client per instance, every table entry registered) and closes each removed client exactly once |
| `PartitionRouter.RebuildForgetsOldTable` | src/main/java/yanbinwa/iCache/service/CacheServiceImpl.java:400-429 | the new table does not depend on the old one, so no stale entry survives |
| `PartitionRouter.SequentialRebuilds` | src/main/java/yanbinwa/iCache/service/CacheServiceImpl.java:336-398 | after two rebuilds the registry is exactly the second snapshot's instances; an instance seen both times keeps its first client; no two instances share a client |
| `PartitionRouter.Clear` | src/main/java/yanbinwa/iCache/service/CacheServiceImpl.java:431-449 | both maps end empty, the mask is -1, the handle counter is kept, each registered client gets one more close, and no other client is closed |
| `PartitionRouter.ClearValid` | src/main/java/yanbinwa/iCache/service/CacheServiceImpl.java:437-443 | clearing keeps the invariant and leaves every formerly registered client closed exactly once |
| `PartitionRouter.ClearIdempotent` | src/main/java/yanbinwa/iCache/service/CacheServiceImpl.java:431-449 | a second clear closes nothing and leaves the same state |
| `PartitionRouter.LookupAfterClear` | src/main/java/yanbinwa/iCache/service/CacheServiceImpl.java:441-443 | after a clear no key resolves |
| `PartitionRouter.PartitionOf` | src/main/java/yanbinwa/iCache/service/CacheServiceImpl.java:302 | the partition of a key is Java's remainder of its hash by the mask: smaller in magnitude than the mask, and 0 when the mask is -1 |
| `PartitionRouter.Lookup` | src/main/java/yanbinwa/iCache/service/CacheServiceImpl.java:296-304 | a null key yields null; otherwise a client is found exactly when the key's partition is in the table, and it is that partition's entry |
| `PartitionRouter.LookupUsesPartitionZero` | src/main/java/yanbinwa/iCache/service/CacheServiceImpl.java:296-304 | with mask -1 every non-null key's partition is 0, so lookup returns the entry of partition 0 |
| `PartitionRouter.LookupDependsOnTableOnly` | src/main/java/yanbinwa/iCache/service/CacheServiceImpl.java:296-304 | lookup is a function of the published table and mask alone |
| `PartitionRouter.LookupResolvesLiveClient` | src/main/java/yanbinwa/iCache/service/CacheServiceImpl.java:296-304 | in a valid router, that is between callbacks, a resolved client is registered and not closed |
| `Watcher.HandleServiceStateChange` | src/main/java/yanbinwa/iCache/service/CacheServiceImpl.java:475-499 | NOTREADY+READY moves to READY and rebuilds; READY+NOTREADY moves to NOTREADY and clears; DEPCHANGE rebuilds and keeps the state; a repeated state changes nothing; the state changes only between READY and NOTREADY |
| `Watcher.HandleKeepsInv` | src/main/java/yanbinwa/iCache/service/CacheServiceImpl.java:475-499 | every event keeps the watcher state off DEPCHANGE and the router valid |
| `Watcher.RunKeepsInv` | src/main/java/yanbinwa/iCache/service/CacheServiceImpl.java:475-499 | the same holds along any sequence of events |
| `Watcher.RepeatedEventIgnored` | src/main/java/yanbinwa/iCache/service/CacheServiceImpl.java:482-493 | a second READY or NOTREADY event is a no-op |
| `Watcher.NotReadyUnroutes` | src/main/java/yanbinwa/iCache/service/CacheServiceImpl.java:488-493 | READY to NOTREADY leaves no key resolvable |
| `Watcher.DepChangeWhileNotReady` | src/main/java/yanbinwa/iCache/service/CacheServiceImpl.java:494-498 | DEPCHANGE while NOTREADY still rebuilds: the watcher stays NOTREADY with clients registered |
| `CacheService.Start` | src/main/java/yanbinwa/iCache/service/CacheServiceImpl.java:124-137 | start leaves the service running, and acts (starting the config client) exactly when it was not running |
| `CacheService.Stop` | src/main/java/yanbinwa/iCache/service/CacheServiceImpl.java:139-152 | stop leaves the service stopped, and acts (stopping the config client) exactly when it was running |
| `CacheService.StartManageService` | src/main/java/yanbinwa/iCache/service/CacheServiceImpl.java:184-191 | the extra guard makes it behave exactly as start |
| `CacheService.StopManageService` | src/main/java/yanbinwa/iCache/service/CacheServiceImpl.java:193-200 | the extra guard makes it behave exactly as stop |
| `CacheService.StartWork` | src/main/java/yanbinwa/iCache/service/CacheServiceImpl.java:270-276 | starting work starts the orchestration client once more and calls nothing else; the rest of the service is unchanged |
| `CacheService.StopWork` | src/main/java/yanbinwa/iCache/service/CacheServiceImpl.java:278-284 | stopping work stops the orchestration client once more and calls nothing else; the rest of the service is unchanged |
| `CacheService.UpdateServiceConfigProperties` | src/main/java/yanbinwa/iCache/service/CacheServiceImpl.java:451-459 | the service ends configured; work starts only on the false-to-true change; the run flag, the watcher and the service data are left alone |
| `CacheService.HandleServiceConfigChange` | src/main/java/yanbinwa/iCache/service/CacheServiceImpl.java:506-533 | valid CREATED/CHANGED configures and starts work only on false-to-true; invalid ones change nothing; DELETED/CLOSE unconfigures and stops work only on true-to-false; an unknown state changes nothing; the router and run flag are never touched |
| `CacheService.RepeatedConfigEventIgnored` | src/main/java/yanbinwa/iCache/service/CacheServiceImpl.java:506-533 | repeating a config event starts or stops nothing again |
| `CacheService.Gated` | src/main/java/yanbinwa/iCache/service/CacheServiceImpl.java:154-182 | `getServiceName`, `isServiceReady` and `getServiceDependence` throw ServiceUnavailable exactly when the gate is shut, and otherwise return their answer (the service name, the orchestration client's readiness, the current snapshot) |
| `CacheService.SetString` | src/main/java/yanbinwa/iCache/service/CacheServiceImpl.java:202-233 | gate shut: ServiceUnavailable, no client touched; key unroutable: RedisError, no client touched; otherwise the resolved client is borrowed first and returned exactly once, last; the calls are exactly borrow, then the write iff the borrow was granted, then return; a refused borrow throws RedisError, a granted or interrupted one returns normally |
| `CacheService.GetString` | src/main/java/yanbinwa/iCache/service/CacheServiceImpl.java:235-268 | same error order; the calls are exactly borrow, then the read iff the borrow was granted, then return; a granted borrow returns the stored value, a refused one throws RedisError, an interrupted one returns null |
| `CacheService.GateComesFirst` | src/main/java/yanbinwa/iCache/service/CacheServiceImpl.java:202-241 | a `setString` or `getString` request fails with ServiceUnavailable iff the gate is shut, whatever the key and the table, and then makes no client call |
| `CacheService.NotReadyWatcherGivesRedisError` | src/main/java/yanbinwa/iCache/service/CacheServiceImpl.java:461-464 | the gate ignores the watcher: after READY to NOTREADY a running, configured service answers RedisError with no client call |
| `CacheService.RunKeepsInv` | src/main/java/yanbinwa/iCache/service/CacheServiceImpl.java:124-152 | along any run of lifecycle, config and orchestration callbacks, the config client is started once more than stopped iff running, the orchestration client likewise iff configured, the router stays valid and the mask stays non-zero |
| `Scenarios.RebuildRoutesTo` | src/main/java/yanbinwa/iCache/service/CacheServiceImpl.java:307-429 | rebuilding to two differently named instances routes every key to the one whose claim covers partition 0 |
| `Scenarios.ReplaceNode` | src/main/java/yanbinwa/iCache/service/CacheServiceImpl.java:336-398 | swapping one instance for another next to a survivor closes the old client once, keeps the survivor's client, gives the newcomer a fresh one and reroutes partition 0 |
| `Scenarios.MembershipChange` | src/main/java/yanbinwa/iCache/service/CacheServiceImpl.java:307-429 | concrete run from {A, B} to {B, C}: A's client closed once, B's kept, C's new, keys move from A's client to B's |
| `Scenarios.UnknownInstanceSkipped` | src/main/java/yanbinwa/iCache/service/CacheServiceImpl.java:409-421 | a claim naming an unobserved service leaves its partition unresolved while the other claims are installed |

## Left out

- `afterPropertiesSet` is left out. It is Spring property parsing
  (`Integer.parseInt`) and construction of the config and orchestration
  clients. The service's own `ServiceData` is a parameter of
  `CacheService.Initial`.
- `CacheController` is left out: it only delegates and maps the two
  exceptions to HTTP status codes.
- The Kafka producer/consumer maps (never used), the empty `init`/`reset`,
  logging, and the pool defaults of `CacheService` are left out.
- Collaborator calls are parameters or logged effects:
  - the orchestration client's `getDepData` is the `dep` argument;
  - its `isReady` is the `clientReady` argument;
  - `ZNodeDataUtil.validateServiceConfigProperties` is the `valid`
    argument;
  - the outcome of `getJedisConnection` is the `Acquisition` argument;
  - the value Redis returns is the `stored` argument;
  - `start`/`stop` of the clients are entries in the `calls` log.
- `RedisClient` internals (the Jedis pool, the wire protocol, what
  `closePool` does) are left out. A client is a handle number.
- The `ReentrantLock` and threading are left out. The lock serialises
  only the map updates of rebuild and clear (`CacheServiceImpl.java`
  lines 333-362, 367-397, 402-428 and 433-448). The snapshot read and its
  guards, the watcher's `curState` test-and-set, the whole config
  callback and `start`/`stop` run outside it, and `curState`,
  `isRunning` and `isConfiged` are plain unsynchronised fields. Modelling
  each callback as one step assumes that the config and orchestration
  clients deliver their callbacks one at a time, which the lock does not
  guarantee. Requests do not take the lock either: `getRedisClientFromKey` reads
  the table unlocked. A request that runs during a rebuild can resolve a
  client whose pool the delete loop has already closed, before the new
  table is installed; during a clear, pools are closed before the table
  is emptied. `LookupResolvesLiveClient` therefore holds only between
  callbacks, and such interleavings are not modelled.
- `ZNodeServiceData` equality is taken as equality of its five fields. Any
  decorates attached to an instance are not part of its identity here.
- Paths that end in a `NullPointerException` are not modelled: a `null`
  dependence map, a `null` partition set, and `getDepData()` returning
  `null` inside `getServiceDependence`. The text rendering in
  `getServiceDependence` is not modelled either.
- A `null` partition number inside a claim's set is not modelled
  (partitions are `int`s). Java's `HashMap` would store it under the
  `null` key, an entry no lookup can reach because a lookup always asks
  for an `int` partition.
- Runtime exceptions thrown by Jedis inside `setString`/`getString` are
  left out. Only the boolean and interrupt outcomes of the borrow are
  modelled.
- JavaLang.HashCode: takes each `char` as one code unit. That matches Java
  for characters in the Basic Multilingual Plane, but Java hashes a
  supplementary character as two UTF-16 surrogates.
- PartitionRouter.Rebuild: the close log counts closures per handle (the
  set of handles of the removed instances). If two instances shared a
  client, Java would close it twice and the log would show once. The
  invariant `Valid` (no shared clients), which every reachable state
  keeps, rules that out.
- PartitionRouter.Clear: the same per-handle counting of closures as in
  `Rebuild`, exact under `Valid`.
- PartitionRouter.Lookup: requires a non-zero mask. Java would throw
  `ArithmeticException` on zero, but the field only ever holds -1, as
  `CacheService.RunKeepsInv` shows.

=== FILE: javalang.dfy ===
/** The Java `int` arithmetic the router relies on: 32-bit wrap-around,
    the truncating remainder operator `%`, and `String.hashCode`. */
module JavaLang {

  const INT_MIN: int := -0x8000_0000
  const INT_MAX: int := 0x7FFF_FFFF
  const TWO_TO_32: int := 0x1_0000_0000

  predicate IsInt32(x: int) {
    INT_MIN <= x <= INT_MAX
  }

  function Abs(x: int): nat {
    if x < 0 then -x else x
  }

  /** Two's-complement wrap-around of an unbounded integer to 32 bits. */
  function Wrap32(x: int): (r: int)
    ensures IsInt32(r)
    ensures (x - r) % TWO_TO_32 == 0
    ensures IsInt32(x) ==> r == x
  {
    (x - INT_MIN) % TWO_TO_32 + INT_MIN
  }

  /** Java's `a / b` on integers: the quotient truncated toward zero. */
  function Quot(a: int, b: int): int
    requires b != 0
  {
    var q := Abs(a) / Abs(b);
    if (a < 0) == (b < 0) then q else -q
  }

  /** Java's `a % b`: the remainder of the truncated division, which takes
      the sign of the dividend (section 15.17.3 of the Java Language
      Specification), unlike Dafny's Euclidean `%`. */
  function Rem(a: int, b: int): (r: int)
    requires b != 0
    ensures a == Quot(a, b) * b + r
    ensures Abs(r) < Abs(b)
    ensures r != 0 ==> (r < 0 <==> a < 0)
  {
    var m := Abs(a) % Abs(b);
    assert Abs(a) == (Abs(a) / Abs(b)) * Abs(b) + m;
    if a < 0 then -m else m
  }

  /** Dividing by -1 never leaves a remainder: every int lands on 0. */
  lemma RemByMinusOne(a: int)
    ensures Rem(a, -1) == 0
  {
  }

  /** Java's `String.hashCode`: s[0]*31^(n-1) + ... + s[n-1], computed in
      `int` arithmetic, so each step wraps to 32 bits. */
  function HashCode(s: string): (h: int)
    ensures IsInt32(h)
  {
    if |s| == 0 then 0
    else Wrap32(31 * HashCode(s[..|s| - 1]) + s[|s| - 1] as int)
  }

  /** Appending a character extends the polynomial by one Horner step. */
  lemma HashCodeAppend(s: string, c: char)
    ensures HashCode(s + [c]) == Wrap32(31 * HashCode(s) + c as int)
  {
    assert (s + [c])[..|s|] == s;
  }

  /** One Horner step on a known hash value. */
  lemma HashCodeStep(s: string, c: char, h: int, h': int)
    requires HashCode(s) == h
    requires h' == Wrap32(31 * h + c as int)
    ensures HashCode(s + [c]) == h'
  {
    HashCodeAppend(s, c);
  }

  /** A negative hash code: the polynomial wraps past INT_MAX after six
      characters. */
  lemma HashCodeCanBeNegative()
    ensures HashCode("aaaaaa") == -1425372064
  {
    HashCodeStep("", 'a', 0, 97);
    assert "" + ['a'] == "a";
    HashCodeStep("a", 'a', 97, 3104);
    assert "a" + ['a'] == "aa";
    HashCodeStep("aa", 'a', 3104, 96321);
    assert "aa" + ['a'] == "aaa";
    HashCodeStep("aaa", 'a', 96321, 2986048);
    assert "aaa" + ['a'] == "aaaa";
    HashCodeStep("aaaa", 'a', 2986048, 92567585);
    assert "aaaa" + ['a'] == "aaaaa";
    HashCodeStep("aaaaa", 'a', 92567585, -1425372064);
    assert "aaaaa" + ['a'] == "aaaaaa";
  }
}

=== FILE: membership.dfy ===
/** The membership differ of a rebuild: which observed Redis instances are
    new, and which registered ones have disappeared. */
module Membership {
  import opened ZNode

  /** The observed instances that hold no client yet, in observation order. */
  function Added(current: set<ServiceData>, observed: seq<ServiceData>): (added: seq<ServiceData>)
    ensures forall d :: d in added <==> d in observed && d !in current
    ensures NoDuplicates(observed) ==> NoDuplicates(added)
    ensures |added| <= |observed|
  {
    if |observed| == 0 then []
    else if observed[0] in current then Added(current, observed[1..])
    else [observed[0]] + Added(current, observed[1..])
  }

  /** The registered instances that are no longer observed. */
  function Removed(current: set<ServiceData>, observed: seq<ServiceData>): set<ServiceData>
  {
    set d | d in current && d !in observed
  }

  /** The two loops that classify instances: the first walks the observed
      set and keeps what is not registered, the second walks the registered
      key set (in whatever order it yields) and keeps what is not observed. */
  method Diff(current: set<ServiceData>, observed: seq<ServiceData>)
    returns (added: seq<ServiceData>, removed: seq<ServiceData>)
    ensures added == Added(current, observed)
    ensures forall d :: d in added <==> d in observed && d !in current
    ensures forall d :: d in removed <==> d in current && d !in observed
    ensures NoDuplicates(removed)
    ensures forall d :: d in added ==> d !in removed
  {
    added := [];
    var i := 0;
    while i < |observed|
      invariant 0 <= i <= |observed|
      invariant added + Added(current, observed[i..]) == Added(current, observed)
    {
      assert observed[i..][1..] == observed[i + 1..];
      if observed[i] !in current {
        added := added + [observed[i]];
      }
      i := i + 1;
    }
    assert observed[i..] == [];

    removed := [];
    var rest := current;
    while rest != {}
      invariant rest <= current
      invariant forall d :: d in removed <==> d in current && d !in rest && d !in observed
      invariant NoDuplicates(removed)
      decreases rest
    {
      var d :| d in rest;
      if d !in observed {
        removed := removed + [d];
      }
      rest := rest - {d};
    }
  }

  /** The differ partitions the symmetric difference of the registered and
      the observed instances: nothing is both added and removed, and what is
      neither is exactly the surviving intersection. */
  lemma DiffPartitions(current: set<ServiceData>, observed: seq<ServiceData>)
    ensures (set d | d in Added(current, observed)) !! Removed(current, observed)
    ensures (current - Removed(current, observed)) + (set d | d in Added(current, observed))
            == set d | d in observed
  {
  }
}

=== FILE: options.dfy ===
/** Optional values and error-carrying results, standing in for Java's
    `null` returns and checked exceptions. */
module Options {

  /** A Java reference that may be `null`. */
  datatype Option<+T> = None | Some(value: T)

  /** A call that either returns a value or throws. */
  datatype Result<+T, +E> = Ok(value: T) | Err(error: E)
}

=== FILE: router.dfy ===
/** The Redis partition router of the cache service: the registry from
    Redis instance to client handle, the partition table built from it, and
    the rebuild, clear and lookup operations on them. Each callback is
    modelled as one step on an immutable record; lookups read the table
    without the lock. */
module PartitionRouter {
  import opened Options
  import opened JavaLang
  import opened ZNode
  import Membership

  /** An abstract RedisClient (one connection pool). Allocation is modelled
      by a counter, so a handle is never reused. */
  type Handle = nat

  /** The router's state.
      `registry`: instance -> client (redisServiceDataToRedisClientMap);
      `table`: partition -> client (partitionKeyToRedisClientMap);
      `partitionMask`: the modulus of the key-to-partition mapping;
      `nextHandle`: the next unused handle;
      `closed`: how many times each handle's pool has been closed. */
  datatype Router = Router(
    registry: map<ServiceData, Handle>,
    table: map<int, Handle>,
    partitionMask: int,
    nextHandle: Handle,
    closed: multiset<Handle>)

  /** The only value `partitionMask` is ever assigned. */
  const INITIAL_PARTITION_MASK: int := -1

  function Initial(): Router {
    Router(map[], map[], INITIAL_PARTITION_MASK, 0, multiset{})
  }

  /** No two instances share a client. */
  ghost predicate Injective(m: map<ServiceData, Handle>) {
    forall a, b :: a in m && b in m && a != b ==> m[a] != m[b]
  }

  /** The invariant every published router state keeps: one private, open,
      allocated client per registered instance; every closed pool closed
      exactly once; every table entry a registered client. */
  ghost predicate Valid(r: Router) {
    && r.partitionMask == INITIAL_PARTITION_MASK
    && Injective(r.registry)
    && (forall d :: d in r.registry ==> r.registry[d] < r.nextHandle && r.closed[r.registry[d]] == 0)
    && (forall h :: h in r.closed ==> h < r.nextHandle && r.closed[h] == 1)
    && r.table.Values <= r.registry.Values
  }

  lemma InitialValid()
    ensures Valid(Initial())
  {
  }

  // ---------------------------------------------------------------------
  // Client reconciliation (updateRedisClient)
  // ---------------------------------------------------------------------

  /** The handles whose pools are closed when `removed` leave the registry. */
  function Closing(registry: map<ServiceData, Handle>, removed: set<ServiceData>): (c: multiset<Handle>)
    ensures forall h :: h in c <==> exists d :: d in removed && d in registry && registry[d] == h
    ensures forall h :: c[h] <= 1
  {
    multiset(set d | d in removed && d in registry :: registry[d])
  }

  /** The add loop: each listed instance not yet present gets a new client
      with the next handle; an instance already present is skipped. */
  function AddClients(registry: map<ServiceData, Handle>, added: seq<ServiceData>, next: Handle)
    : (res: (map<ServiceData, Handle>, Handle))
    ensures res.1 >= next
    ensures res.0.Keys == registry.Keys + set d | d in added
    ensures forall d :: d in registry ==> res.0[d] == registry[d]
    ensures forall d :: d in res.0 && d !in registry ==> next <= res.0[d] < res.1
    ensures FreshDistinct(res.0, registry)
    decreases |added|
  {
    if |added| == 0 then (registry, next)
    else if added[0] in registry then AddClients(registry, added[1..], next)
    else
      var d0 := added[0];
      var grown := registry[d0 := next];
      var res := AddClients(grown, added[1..], next + 1);
      assert (set d | d in added) == {d0} + set d | d in added[1..];
      assert grown.Keys == registry.Keys + {d0};
      FreshDistinctStep(registry, d0, next, res.0);
      res
  }

  /** The clients added on top of `base` are pairwise distinct. */
  ghost predicate FreshDistinct(m: map<ServiceData, Handle>, base: map<ServiceData, Handle>) {
    forall a, b :: a in m && b in m && a !in base && b !in base && a != b ==> m[a] != m[b]
  }

  /** One step of the add loop keeps the added clients distinct: the newest
      handle lies below every handle added after it. */
  lemma FreshDistinctStep(registry: map<ServiceData, Handle>, d0: ServiceData, next: Handle, m: map<ServiceData, Handle>)
    requires d0 !in registry
    requires d0 in m && m[d0] == next
    requires forall d :: d in m && d !in registry && d != d0 ==> next + 1 <= m[d]
    requires FreshDistinct(m, registry[d0 := next])
    ensures FreshDistinct(m, registry)
  {
  }

  /** updateRedisClient: close and drop the clients of `removed`, then add
      clients for `added`, on a copy that replaces the registry. */
  function UpdateClients(r: Router, added: seq<ServiceData>, removed: set<ServiceData>): (r': Router)
    ensures r'.registry.Keys == (r.registry.Keys - removed) + set d | d in added
    ensures forall d :: d in r.registry && d !in removed ==> r'.registry[d] == r.registry[d]
    ensures forall d :: d in r'.registry && (d !in r.registry || d in removed) ==>
              r.nextHandle <= r'.registry[d] < r'.nextHandle
    ensures FreshDistinct(r'.registry, r.registry - removed)
    ensures r.nextHandle <= r'.nextHandle
    ensures r'.closed == r.closed + Closing(r.registry, removed)
    ensures r'.table == r.table && r'.partitionMask == r.partitionMask
  {
    var res := AddClients(r.registry - removed, added, r.nextHandle);
    r.(registry := res.0, nextHandle := res.1, closed := r.closed + Closing(r.registry, removed))
  }

  // ---------------------------------------------------------------------
  // Partition table (updatePartitionKeyToRedisClientMap)
  // ---------------------------------------------------------------------

  /** Some registered instance carries this service name. */
  ghost predicate Resolves(registry: map<ServiceData, Handle>, name: string) {
    exists d :: d in registry && d.serviceName == name
  }

  /** The registered instance a service name resolves to: the first one the
      registry's iteration yields. That order is not specified, so the model
      makes an arbitrary but fixed choice among the matching instances. */
  ghost function FirstNamed(registry: map<ServiceData, Handle>, name: string): (r: Option<ServiceData>)
    ensures r.Some? <==> Resolves(registry, name)
    ensures r.Some? ==> r.value in registry && r.value.serviceName == name
  {
    if Resolves(registry, name) then
      var d :| d in registry && d.serviceName == name; Some(d)
    else None
  }

  /** Every partition claimed by a service name that resolves. */
  ghost function ClaimedPartitions(registry: map<ServiceData, Handle>, claims: seq<PartitionClaim>): set<int>
  {
    set i, p | 0 <= i < |claims| && p in claims[i].partitions && Resolves(registry, claims[i].serviceName) :: p
  }

  /** A fresh table filled claim by claim, a later claim overwriting an
      earlier one on a shared partition; a claim whose name resolves to no
      registered instance is skipped. */
  ghost function BuildTable(registry: map<ServiceData, Handle>, claims: seq<PartitionClaim>): (t: map<int, Handle>)
    ensures t.Keys == ClaimedPartitions(registry, claims)
    ensures forall p :: p in t ==> t[p] in registry.Values
  {
    if |claims| == 0 then map[]
    else
      var prev := BuildTable(registry, claims[..|claims| - 1]);
      var last := claims[|claims| - 1];
      ClaimedSnoc(registry, claims);
      match FirstNamed(registry, last.serviceName)
      case None => prev
      case Some(d) => prev + map p | p in last.partitions :: registry[d]
  }

  /** How the claimed partitions grow by one claim. */
  lemma ClaimedSnoc(registry: map<ServiceData, Handle>, claims: seq<PartitionClaim>)
    requires |claims| > 0
    ensures ClaimedPartitions(registry, claims)
            == ClaimedPartitions(registry, claims[..|claims| - 1])
               + (if Resolves(registry, claims[|claims| - 1].serviceName) then claims[|claims| - 1].partitions else {})
  {
    var n := |claims| - 1;
    var init := claims[..n];
    forall p | p in ClaimedPartitions(registry, claims)
      ensures p in ClaimedPartitions(registry, init)
              || (Resolves(registry, claims[n].serviceName) && p in claims[n].partitions)
    {
      var i :| 0 <= i < |claims| && p in claims[i].partitions && Resolves(registry, claims[i].serviceName);
      if i < n {
        assert init[i] == claims[i];
      }
    }
    forall p | p in ClaimedPartitions(registry, init)
      ensures p in ClaimedPartitions(registry, claims)
    {
      var i :| 0 <= i < |init| && p in init[i].partitions && Resolves(registry, init[i].serviceName);
      assert claims[i] == init[i];
    }
    if Resolves(registry, claims[n].serviceName) {
      forall p | p in claims[n].partitions
        ensures p in ClaimedPartitions(registry, claims)
      {
        assert 0 <= n < |claims|;
      }
    }
  }

  /** Claim `i` is the last one that puts partition `p` in the table. */
  ghost predicate IsLastClaim(registry: map<ServiceData, Handle>, claims: seq<PartitionClaim>, p: int, i: int) {
    && 0 <= i < |claims|
    && p in claims[i].partitions
    && Resolves(registry, claims[i].serviceName)
    && forall j :: i < j < |claims| && p in claims[j].partitions ==> !Resolves(registry, claims[j].serviceName)
  }

  /** The table maps each partition to the client of the instance named by
      the last resolvable claim on it. */
  lemma {:induction false} BuildTableLastClaim(registry: map<ServiceData, Handle>, claims: seq<PartitionClaim>, p: int, i: int)
    requires IsLastClaim(registry, claims, p, i)
    ensures p in BuildTable(registry, claims)
    ensures BuildTable(registry, claims)[p] == registry[FirstNamed(registry, claims[i].serviceName).value]
    decreases |claims|
  {
    var n := |claims| - 1;
    var init := claims[..n];
    if i < n {
      assert !(p in claims[n].partitions && Resolves(registry, claims[n].serviceName));
      forall j | i < j < |init| && p in init[j].partitions
        ensures !Resolves(registry, init[j].serviceName)
      {
        assert init[j] == claims[j];
      }
      assert init[i] == claims[i];
      BuildTableLastClaim(registry, init, p, i);
    }
  }

  /** One registered instance per service name. */
  ghost predicate UniqueNames(registry: map<ServiceData, Handle>) {
    forall a, b :: a in registry && b in registry && a.serviceName == b.serviceName ==> a == b
  }

  /** With one registered instance per service name, the claimed partitions
      of a name resolve to that very instance's client. */
  lemma ResolvesToNamedInstance(registry: map<ServiceData, Handle>, claims: seq<PartitionClaim>, p: int, i: int, d: ServiceData)
    requires IsLastClaim(registry, claims, p, i)
    requires d in registry && d.serviceName == claims[i].serviceName
    requires UniqueNames(registry)
    ensures p in BuildTable(registry, claims) && BuildTable(registry, claims)[p] == registry[d]
  {
    BuildTableLastClaim(registry, claims, p, i);
  }

  // ---------------------------------------------------------------------
  // Rebuild (buildOrUpdateRedisPartitionInfo), clear, lookup
  // ---------------------------------------------------------------------

  /** Reconcile the registry with the snapshot's Redis instances and install
      a fresh table from its claims. Without a usable snapshot nothing
      changes. The partition mask is never touched. */
  ghost function Rebuild(r: Router, dep: Option<DependenceData>): (r': Router)
    ensures Snapshot(dep).None? ==> r' == r
    ensures r'.partitionMask == r.partitionMask
    ensures Snapshot(dep).Some? ==> r'.registry.Keys == set d | d in Snapshot(dep).value.observed
    ensures forall d :: d in r.registry && d in r'.registry ==> r'.registry[d] == r.registry[d]
    ensures forall d :: d in r'.registry && d !in r.registry ==> r.nextHandle <= r'.registry[d] < r'.nextHandle
    ensures FreshDistinct(r'.registry, r.registry)
    ensures r.nextHandle <= r'.nextHandle
    ensures r'.closed == r.closed + Closing(r.registry, r.registry.Keys - r'.registry.Keys)
    ensures Snapshot(dep).Some? ==> r'.table.Keys == ClaimedPartitions(r'.registry, Snapshot(dep).value.claims)
  {
    match Snapshot(dep)
    case None => r
    case Some(snap) =>
      var added := Membership.Added(r.registry.Keys, snap.observed);
      var removed := Membership.Removed(r.registry.Keys, snap.observed);
      Membership.DiffPartitions(r.registry.Keys, snap.observed);
      var r1 := if |added| > 0 || removed != {} then UpdateClients(r, added, removed) else r;
      assert r.registry.Keys - r1.registry.Keys == removed;
      r1.(table := BuildTable(r1.registry, snap.claims))
  }

  /** clearRedisPartitionInfo: close every registered client, empty both
      maps and reset the mask. */
  function Clear(r: Router): (r': Router)
    ensures r'.registry == map[] && r'.table == map[]
    ensures r'.partitionMask == INITIAL_PARTITION_MASK
    ensures r'.nextHandle == r.nextHandle
    ensures forall d :: d in r.registry ==> r'.closed[r.registry[d]] == r.closed[r.registry[d]] + 1
    ensures forall h :: h !in r.registry.Values ==> r'.closed[h] == r.closed[h]
  {
    r.(registry := map[], table := map[], partitionMask := INITIAL_PARTITION_MASK,
       closed := r.closed + multiset(r.registry.Values))
  }

  /** The partition a non-null key belongs to: Java's `key.hashCode() % partitionMask`. */
  function PartitionOf(key: string, partitionMask: int): (p: int)
    requires partitionMask != 0
    ensures Abs(p) < Abs(partitionMask)
    ensures HashCode(key) == Quot(HashCode(key), partitionMask) * partitionMask + p
    ensures partitionMask == INITIAL_PARTITION_MASK ==> p == 0
  {
    RemByMinusOne(HashCode(key));
    Rem(HashCode(key), partitionMask)
  }

  /** getRedisClientFromKey: `null` for a `null` key, otherwise whatever
      the table holds for the key's partition. The mask is never 0 (it only
      ever holds -1), so Java's division by zero cannot arise. */
  function Lookup(r: Router, key: Option<string>): (h: Option<Handle>)
    requires r.partitionMask != 0
    ensures key.None? ==> h.None?
    ensures h.Some? ==> h.value in r.table.Values
    ensures key.Some? ==> (h.Some? <==> PartitionOf(key.value, r.partitionMask) in r.table)
    ensures key.Some? && h.Some? ==> h.value == r.table[PartitionOf(key.value, r.partitionMask)]
  {
    if key.None? then None
    else
      var p := PartitionOf(key.value, r.partitionMask);
      if p in r.table then Some(r.table[p]) else None
  }

  // ---------------------------------------------------------------------
  // Properties
  // ---------------------------------------------------------------------

  /** A rebuild keeps the router invariant; in particular each removed
      client is closed exactly once and every new client is fresh. */
  lemma RebuildValid(r: Router, dep: Option<DependenceData>)
    requires Valid(r)
    ensures Valid(Rebuild(r, dep))
    ensures forall d :: d in r.registry && d !in Rebuild(r, dep).registry ==> Rebuild(r, dep).closed[r.registry[d]] == 1
  {
    var r' := Rebuild(r, dep);
    var gone := r.registry.Keys - r'.registry.Keys;
    var closing := set d | d in gone && d in r.registry :: r.registry[d];
    assert Closing(r.registry, gone) == multiset(closing);
    forall d | d in r'.registry
      ensures r'.registry[d] < r'.nextHandle && r'.closed[r'.registry[d]] == 0
    {
      if d in r.registry {
        assert r.registry[d] !in closing;
      } else {
        assert r'.registry[d] !in closing;
        assert r'.registry[d] !in r.closed;
      }
    }
    forall h | h in r'.closed
      ensures h < r'.nextHandle && r'.closed[h] == 1
    {
      if h in closing {
        assert h !in r.closed;
      }
    }
    forall d | d in gone
      ensures r'.closed[r.registry[d]] == 1
    {
      assert r.registry[d] in closing;
    }
    forall a, b | a in r'.registry && b in r'.registry && a != b
      ensures r'.registry[a] != r'.registry[b]
    {
      if a in r.registry && b !in r.registry {
        assert r'.registry[a] < r.nextHandle <= r'.registry[b];
      } else if a !in r.registry && b in r.registry {
        assert r'.registry[b] < r.nextHandle <= r'.registry[a];
      }
    }
  }
  /** A rebuild ignores the table it replaces: the new table depends only on
      the registry and the claims, so no stale partition survives. */
  lemma RebuildForgetsOldTable(r: Router, dep: Option<DependenceData>, stale: map<int, Handle>)
    requires Snapshot(dep).Some?
    ensures Rebuild(r.(table := stale), dep).table == Rebuild(r, dep).table
    ensures Rebuild(r, dep).table == BuildTable(Rebuild(r, dep).registry, Snapshot(dep).value.claims)
  {
  }

  /** Two rebuilds in a row: the registry ends up exactly the second
      snapshot's instances, an instance observed both times keeps the client
      the first rebuild gave it, and no instance holds two clients. */
  lemma SequentialRebuilds(r: Router, dep1: Option<DependenceData>, dep2: Option<DependenceData>)
    requires Valid(r)
    requires Snapshot(dep1).Some? && Snapshot(dep2).Some?
    ensures var r1 := Rebuild(r, dep1); var r2 := Rebuild(r1, dep2);
      && r2.registry.Keys == set d | d in Snapshot(dep2).value.observed
      && (forall d :: d in Snapshot(dep1).value.observed && d in Snapshot(dep2).value.observed
            ==> r2.registry[d] == r1.registry[d])
      && Injective(r2.registry)
  {
    RebuildValid(r, dep1);
    RebuildValid(Rebuild(r, dep1), dep2);
  }

  /** Clearing keeps the invariant and closes each registered client once. */
  lemma ClearValid(r: Router)
    requires Valid(r)
    ensures Valid(Clear(r))
    ensures forall d :: d in r.registry ==> Clear(r).closed[r.registry[d]] == 1
  {
    var r' := Clear(r);
    forall h | h in r'.closed
      ensures h < r'.nextHandle && r'.closed[h] == 1
    {
      if h in r.registry.Values {
        var d :| d in r.registry && r.registry[d] == h;
      }
    }
  }

  /** A second clear closes nothing and changes nothing. */
  lemma ClearIdempotent(r: Router)
    ensures Clear(Clear(r)) == Clear(r)
  {
    assert multiset(Clear(r).registry.Values) == multiset{};
  }

  /** After a clear no key resolves. */
  lemma LookupAfterClear(r: Router, key: Option<string>)
    ensures Lookup(Clear(r), key).None?
  {
  }

  /** With the mask at -1 every non-null key lands on partition 0, whatever
      its hash code, so the whole key space is served by one client. */
  lemma LookupUsesPartitionZero(r: Router, key: string)
    requires r.partitionMask == INITIAL_PARTITION_MASK
    ensures PartitionOf(key, r.partitionMask) == 0
    ensures Lookup(r, Some(key)) == if 0 in r.table then Some(r.table[0]) else None
  {
    RemByMinusOne(HashCode(key));
  }

  /** A lookup depends on nothing but the published table and mask:
      repeating it between two writes gives the same client. */
  lemma LookupDependsOnTableOnly(r1: Router, r2: Router, key: Option<string>)
    requires r1.partitionMask != 0
    requires r1.table == r2.table && r1.partitionMask == r2.partitionMask
    ensures Lookup(r1, key) == Lookup(r2, key)
  {
  }

  /** In a valid state a resolved client is a registered, open one. */
  lemma LookupResolvesLiveClient(r: Router, key: Option<string>)
    requires Valid(r)
    ensures Lookup(r, key).Some? ==> exists d :: d in r.registry && r.registry[d] == Lookup(r, key).value
    ensures Lookup(r, key).Some? ==> r.closed[Lookup(r, key).value] == 0
  {
  }
}

=== FILE: scenarios.dfy ===
/** Concrete runs of the router: a membership change from {A, B} to
    {B, C}, and a claim naming an instance that is not observed. */
module Scenarios {
  import opened Options
  import opened ZNode
  import opened PartitionRouter

  const NodeA := ServiceData("10.0.0.1", "redis", "redisA", 6379, "/redis")
  const NodeB := ServiceData("10.0.0.2", "redis", "redisB", 6379, "/redis")
  const NodeC := ServiceData("10.0.0.3", "redis", "redisC", 6379, "/redis")

  function Snap(observed: seq<ServiceData>, claims: seq<PartitionClaim>): Option<DependenceData> {
    Some(DependenceData(Some(RedisDecorate(Some(claims))), map[REDIS_SERVICE_GROUP_KEY := observed]))
  }

  const ClaimsAB := [PartitionClaim("redisA", {0, 1}), PartitionClaim("redisB", {2, 3})]
  const ClaimsBC := [PartitionClaim("redisB", {0, 1}), PartitionClaim("redisC", {2, 3})]

  lemma PairHasUniqueNames(registry: map<ServiceData, Handle>, a: ServiceData, b: ServiceData)
    requires registry.Keys == {a, b} && a.serviceName != b.serviceName
    ensures UniqueNames(registry)
  {
    forall x, y | x in registry && y in registry && x.serviceName == y.serviceName
      ensures x == y
    {
      assert x in {a, b} && y in {a, b};
    }
  }

  /** Whichever router holds a table built from `claims` over a registry
      with one instance per name: every key lands on partition 0 and so on
      the client of the instance named by the last claim on 0. */
  lemma {:induction false} RoutesToClaimant(r: Router, claims: seq<PartitionClaim>, i: int, d: ServiceData, key: string)
    requires Valid(r) && UniqueNames(r.registry)
    requires r.table == BuildTable(r.registry, claims)
    requires IsLastClaim(r.registry, claims, 0, i)
    requires d in r.registry && d.serviceName == claims[i].serviceName
    ensures Lookup(r, Some(key)) == Some(r.registry[d])
  {
    ResolvesToNamedInstance(r.registry, claims, 0, i, d);
    LookupUsesPartitionZero(r, key);
  }

  /** A rebuild from a snapshot observing exactly `a` and `b`, with
      distinct service names, whose last claim on partition 0 names `a`:
      every key then resolves to `a`'s client. */
  lemma {:induction false} RebuildRoutesTo(r: Router, dep: Option<DependenceData>, a: ServiceData, b: ServiceData, i: int, key: string)
    requires Valid(r)
    requires Snapshot(dep).Some? && (set d | d in Snapshot(dep).value.observed) == {a, b}
    requires a.serviceName != b.serviceName
    requires 0 <= i < |Snapshot(dep).value.claims| && Snapshot(dep).value.claims[i].serviceName == a.serviceName
    requires 0 in Snapshot(dep).value.claims[i].partitions
    requires forall j :: i < j < |Snapshot(dep).value.claims| ==> 0 !in Snapshot(dep).value.claims[j].partitions
    ensures Valid(Rebuild(r, dep))
    ensures Rebuild(r, dep).registry.Keys == {a, b}
    ensures Lookup(Rebuild(r, dep), Some(key)) == Some(Rebuild(r, dep).registry[a])
  {
    var r' := Rebuild(r, dep);
    var claims := Snapshot(dep).value.claims;
    RebuildValid(r, dep);
    RebuildForgetsOldTable(r, dep, map[]);
    assert Resolves(r'.registry, claims[i].serviceName) by {
      assert a in r'.registry;
    }
    assert IsLastClaim(r'.registry, claims, 0, i);
    PairHasUniqueNames(r'.registry, a, b);
    assert r'.table == BuildTable(r'.registry, claims);
    RoutesToClaimant(r', claims, i, a, key);
  }

  /** The first rebuild registers A and B and routes every key to A. */
  lemma FirstRebuild(key: string)
    ensures var r1 := Rebuild(PartitionRouter.Initial(), Snap([NodeA, NodeB], ClaimsAB));
      && Valid(r1)
      && r1.registry.Keys == {NodeA, NodeB}
      && Lookup(r1, Some(key)) == Some(r1.registry[NodeA])
  {
    InitialValid();
    var dep1 := Snap([NodeA, NodeB], ClaimsAB);
    assert Snapshot(dep1) == Some(RedisSnapshot([NodeA, NodeB], ClaimsAB));
    assert (set d | d in [NodeA, NodeB]) == {NodeA, NodeB};
    RebuildRoutesTo(PartitionRouter.Initial(), dep1, NodeA, NodeB, 0, key);
  }

  /** A rebuild that replaces `a` by `c` next to a surviving `b`. */
  lemma {:induction false} ReplaceNode(r: Router, dep: Option<DependenceData>, a: ServiceData, b: ServiceData, c: ServiceData, i: int, key: string)
    requires Valid(r) && r.registry.Keys == {a, b}
    requires Snapshot(dep).Some? && (set d | d in Snapshot(dep).value.observed) == {b, c}
    requires a != b && a != c && b.serviceName != c.serviceName
    requires 0 <= i < |Snapshot(dep).value.claims| && Snapshot(dep).value.claims[i].serviceName == b.serviceName
    requires 0 in Snapshot(dep).value.claims[i].partitions
    requires forall j :: i < j < |Snapshot(dep).value.claims| ==> 0 !in Snapshot(dep).value.claims[j].partitions
    ensures var r' := Rebuild(r, dep);
      && r'.registry.Keys == {b, c}
      && r'.registry[b] == r.registry[b]
      && r'.closed[r.registry[a]] == 1
      && r'.registry[c] != r.registry[a] && r'.registry[c] != r.registry[b]
      && Lookup(r', Some(key)) == Some(r.registry[b])
  {
    var r' := Rebuild(r, dep);
    RebuildRoutesTo(r, dep, b, c, i, key);
    RebuildValid(r, dep);
    PairReplaced(r, r', a, b, c);
  }

  /** What a swap of `a` for `c` next to `b` means for the clients. */
  lemma PairReplaced(r: Router, r': Router, a: ServiceData, b: ServiceData, c: ServiceData)
    requires Valid(r) && r.registry.Keys == {a, b} && r'.registry.Keys == {b, c}
    requires a != b && a != c && b != c
    requires forall d :: d in r.registry && d in r'.registry ==> r'.registry[d] == r.registry[d]
    requires forall d :: d in r'.registry && d !in r.registry ==> r.nextHandle <= r'.registry[d]
    requires forall d :: d in r.registry && d !in r'.registry ==> r'.closed[r.registry[d]] == 1
    ensures r'.registry[b] == r.registry[b]
    ensures r'.closed[r.registry[a]] == 1
    ensures r'.registry[c] != r.registry[a] && r'.registry[c] != r.registry[b]
  {
    assert a !in r'.registry;
    assert c !in r.registry;
  }

  /** The second rebuild, from A and B to B and C. */
  lemma SecondRebuild(r1: Router, key: string)
    requires Valid(r1) && r1.registry.Keys == {NodeA, NodeB}
    ensures var r2 := Rebuild(r1, Snap([NodeB, NodeC], ClaimsBC));
      && r2.registry.Keys == {NodeB, NodeC}
      && r2.registry[NodeB] == r1.registry[NodeB]
      && r2.closed[r1.registry[NodeA]] == 1
      && r2.registry[NodeC] != r1.registry[NodeA] && r2.registry[NodeC] != r1.registry[NodeB]
      && Lookup(r2, Some(key)) == Some(r1.registry[NodeB])
  {
    var dep2 := Snap([NodeB, NodeC], ClaimsBC);
    assert Snapshot(dep2) == Some(RedisSnapshot([NodeB, NodeC], ClaimsBC));
    assert (set d | d in [NodeB, NodeC]) == {NodeB, NodeC};
    ReplaceNode(r1, dep2, NodeA, NodeB, NodeC, 0, key);
  }

  /** From A and B to B and C: A's client is closed exactly once, B keeps
      its client, C gets a new one, and partition 0 (where every key lands)
      moves from A's client to B's. */
  lemma MembershipChange(key: string)
    ensures var r1 := Rebuild(PartitionRouter.Initial(), Snap([NodeA, NodeB], ClaimsAB));
      var r2 := Rebuild(r1, Snap([NodeB, NodeC], ClaimsBC));
      && Lookup(r1, Some(key)) == Some(r1.registry[NodeA])
      && r2.registry.Keys == {NodeB, NodeC}
      && r2.registry[NodeB] == r1.registry[NodeB]
      && r2.closed[r1.registry[NodeA]] == 1
      && r2.registry[NodeC] != r1.registry[NodeA] && r2.registry[NodeC] != r1.registry[NodeB]
      && Lookup(r2, Some(key)) == Some(r1.registry[NodeB])
  {
    FirstRebuild(key);
    SecondRebuild(Rebuild(PartitionRouter.Initial(), Snap([NodeA, NodeB], ClaimsAB)), key);
  }

  /** A claim whose service name matches no observed instance leaves its
      partition unresolved, while the other claims are installed. */
  lemma UnknownInstanceSkipped()
    ensures var r := Rebuild(PartitionRouter.Initial(),
                             Snap([NodeA], [PartitionClaim("redisA", {0}), PartitionClaim("redisX", {1})]));
      0 in r.table && 1 !in r.table
  {
    var claims := [PartitionClaim("redisA", {0}), PartitionClaim("redisX", {1})];
    var r := Rebuild(PartitionRouter.Initial(), Snap([NodeA], claims));
    assert r.registry.Keys == {NodeA};
    assert Resolves(r.registry, "redisA");
    assert !Resolves(r.registry, "redisX");
    assert 0 in ClaimedPartitions(r.registry, claims) by {
      assert 0 in claims[0].partitions;
    }
  }
}

=== FILE: service.dfy ===
/** The cache service around the router: the run and config flags that
    gate requests, the config callback, the lifecycle calls, and the
    `setString`/`getString` facade. */
module CacheService {
  import opened Options
  import opened ZNode
  import opened PartitionRouter
  import opened Watcher

  /** ServiceConfigState values the callback reacts to; an unknown or `null`
      state is `None` where the callback takes one. */
  datatype ConfigState = CREATED | CHANGED | DELETED | CLOSE

  /** Calls the service makes on its collaborators: `start()`/`stop()` on
      the config client, and `startWork()`/`stopWork()`, which start and
      stop the orchestration client. */
  datatype ExternalCall =
    | ConfigClientStart
    | ConfigClientStop
    | OrchestrationClientStart
    | OrchestrationClientStop

  /** The service: its own registration data, the watcher with its router,
      the two flags, and the log of calls made on collaborators. */
  datatype Service = Service(
    serviceData: ServiceData,
    watched: Watched,
    isRunning: bool,
    isConfiged: bool,
    calls: seq<ExternalCall>)

  function Initial(serviceData: ServiceData): Service {
    Service(serviceData, Watcher.Initial(), false, false, [])
  }

  /** isServiceReadyToWork: the gate every request passes first. */
  predicate IsServiceReadyToWork(s: Service) {
    s.isRunning && s.isConfiged
  }

  // ---------------------------------------------------------------------
  // Lifecycle (start, stop, startManageService, stopManageService)
  // ---------------------------------------------------------------------

  /** start: acts only when the service is not running yet. */
  function Start(s: Service): (s': Service)
    ensures s'.isRunning
    ensures s' != s <==> !s.isRunning
    ensures !s.isRunning ==> s' == s.(isRunning := true, calls := s.calls + [ConfigClientStart])
  {
    if !s.isRunning then s.(isRunning := true, calls := s.calls + [ConfigClientStart])
    else s
  }

  /** stop: acts only when the service is running. */
  function Stop(s: Service): (s': Service)
    ensures !s'.isRunning
    ensures s' != s <==> s.isRunning
    ensures s.isRunning ==> s' == s.(isRunning := false, calls := s.calls + [ConfigClientStop])
  {
    if s.isRunning then s.(isRunning := false, calls := s.calls + [ConfigClientStop])
    else s
  }

  /** startManageService: start unless already running. */
  function StartManageService(s: Service): (s': Service)
    ensures s' == Start(s)
  {
    if !s.isRunning then Start(s) else s
  }

  /** stopManageService: stop unless already stopped. */
  function StopManageService(s: Service): (s': Service)
    ensures s' == Stop(s)
  {
    if s.isRunning then Stop(s) else s
  }

  // ---------------------------------------------------------------------
  // Config callback (handleServiceConfigChange, updateServiceConfigProperties)
  // ---------------------------------------------------------------------

  /** startWork: init() does nothing; the orchestration client starts. */
  function StartWork(s: Service): (s': Service)
    ensures Count(s'.calls, OrchestrationClientStart) == Count(s.calls, OrchestrationClientStart) + 1
    ensures forall c :: c != OrchestrationClientStart ==> Count(s'.calls, c) == Count(s.calls, c)
    ensures |s'.calls| == |s.calls| + 1 && s'.calls[..|s.calls|] == s.calls
    ensures s'.(calls := s.calls) == s
  {
    s.(calls := s.calls + [OrchestrationClientStart])
  }

  /** stopWork: the orchestration client stops; reset() does nothing. */
  function StopWork(s: Service): (s': Service)
    ensures Count(s'.calls, OrchestrationClientStop) == Count(s.calls, OrchestrationClientStop) + 1
    ensures forall c :: c != OrchestrationClientStop ==> Count(s'.calls, c) == Count(s.calls, c)
    ensures |s'.calls| == |s.calls| + 1 && s'.calls[..|s.calls|] == s.calls
    ensures s'.(calls := s.calls) == s
  {
    s.(calls := s.calls + [OrchestrationClientStop])
  }

  /** updateServiceConfigProperties: start work on the first valid config. */
  function UpdateServiceConfigProperties(s: Service): (s': Service)
    ensures s'.isConfiged
    ensures s'.calls == s.calls + (if s.isConfiged then [] else [OrchestrationClientStart])
    ensures s'.(isConfiged := s.isConfiged, calls := s.calls) == s
  {
    var s1 := if !s.isConfiged then StartWork(s) else s;
    s1.(isConfiged := true)
  }

  /** handleServiceConfigChange. `valid` is the verdict of the config
      validity check on the properties the config client hands out. */
  function HandleServiceConfigChange(s: Service, state: Option<ConfigState>, valid: bool): (s': Service)
    ensures s'.serviceData == s.serviceData && s'.watched == s.watched && s'.isRunning == s.isRunning
    ensures state.Some? && state.value in {CREATED, CHANGED} && valid ==>
              s'.isConfiged && s'.calls == s.calls + (if s.isConfiged then [] else [OrchestrationClientStart])
    ensures state.Some? && state.value in {CREATED, CHANGED} && !valid ==> s' == s
    ensures state.Some? && state.value in {DELETED, CLOSE} ==>
              !s'.isConfiged && s'.calls == s.calls + (if s.isConfiged then [OrchestrationClientStop] else [])
    ensures state.None? ==> s' == s
  {
    match state
    case None => s
    case Some(st) =>
      if st == CREATED || st == CHANGED then
        if valid then UpdateServiceConfigProperties(s) else s
      else
        var s1 := if s.isConfiged then StopWork(s) else s;
        s1.(isConfiged := false)
  }

  /** A repeated config event changes nothing more: a second valid
      CREATED/CHANGED does not start work again, and a second DELETED/CLOSE
      does not stop it again. */
  lemma RepeatedConfigEventIgnored(s: Service, state: ConfigState, valid: bool)
    ensures var s1 := HandleServiceConfigChange(s, Some(state), valid);
      HandleServiceConfigChange(s1, Some(state), valid) == s1
  {
  }

  /** The watcher callback, acting on the service's router. */
  ghost function HandleServiceStateChange(s: Service, state: OrchestrationState, dep: Option<DependenceData>): Service
  {
    s.(watched := Watcher.HandleServiceStateChange(s.watched, state, dep))
  }

  // ---------------------------------------------------------------------
  // Requests (getServiceName, isServiceReady, getServiceDependence,
  // setString, getString)
  // ---------------------------------------------------------------------

  /** The exceptions a request can throw. `RedisError` covers both an
      unroutable key and a refused connection. */
  datatype CacheError = ServiceUnavailable | RedisError

  /** The gate in front of every request: ServiceUnavailable unless the
      service runs and is configured, otherwise the request's answer. */
  function Gated<T>(s: Service, answer: T): (r: Result<T, CacheError>)
    ensures r.Err? <==> !IsServiceReadyToWork(s)
    ensures r.Err? ==> r.error == ServiceUnavailable
    ensures r.Ok? ==> r.value == answer
  {
    if !IsServiceReadyToWork(s) then Err(ServiceUnavailable) else Ok(answer)
  }

  /** getServiceName. */
  function GetServiceName(s: Service): Result<string, CacheError> {
    Gated(s, s.serviceData.serviceName)
  }

  /** isServiceReady: the orchestration client's own readiness, passed in. */
  function IsServiceReady(s: Service, clientReady: bool): Result<bool, CacheError> {
    Gated(s, clientReady)
  }

  /** getServiceDependence: the orchestration client's current snapshot
      (its rendering as text is not modelled). */
  function GetServiceDependence(s: Service, dep: DependenceData): Result<DependenceData, CacheError> {
    Gated(s, dep)
  }

  /** What borrowing a pooled connection did: `getJedisConnection` returned
      true, returned false, or threw InterruptedException. */
  datatype Acquisition = Granted | Refused | Interrupted

  /** Calls made on a client while serving one request. */
  datatype ConnectionCall =
    | Acquire(h: Handle)
    | Write(h: Handle, key: string, value: Option<string>)
    | Read(h: Handle, key: string)
    | Release(h: Handle)

  /** A request's outcome and the calls it made on a client. */
  datatype Reply<+T> = Reply(result: Result<T, CacheError>, conn: seq<ConnectionCall>)

  /** The connection protocol of one resolved request: try to borrow, do
      `op` if that succeeded, and give the connection back in every case
      (the `finally` block). A refusal throws RedisError; an interruption
      is swallowed. */
  function Connection(h: Handle, acq: Acquisition, op: ConnectionCall): seq<ConnectionCall>
  {
    if acq == Granted then [Acquire(h), op, Release(h)] else [Acquire(h), Release(h)]
  }

  /** setString. */
  function SetString(s: Service, key: Option<string>, value: Option<string>, acq: Acquisition)
    : (rep: Reply<()>)
    requires s.watched.router.partitionMask != 0
    ensures !IsServiceReadyToWork(s) ==> rep == Reply(Err(ServiceUnavailable), [])
    ensures IsServiceReadyToWork(s) && Lookup(s.watched.router, key).None? ==> rep == Reply(Err(RedisError), [])
    ensures IsServiceReadyToWork(s) && Lookup(s.watched.router, key).Some? ==>
              var h := Lookup(s.watched.router, key).value;
              && key.Some?
              && |rep.conn| >= 2 && rep.conn[0] == Acquire(h)
              && rep.conn[|rep.conn| - 1] == Release(h)
              && multiset(rep.conn)[Release(h)] == 1
              && (rep.result.Err? <==> acq == Refused)
              && (rep.result.Err? ==> rep.result.error == RedisError)
              && (Write(h, key.value, value) in rep.conn <==> acq == Granted)
              && rep.conn == [Acquire(h)] + (if acq == Granted then [Write(h, key.value, value)] else []) + [Release(h)]
  {
    if !IsServiceReadyToWork(s) then Reply(Err(ServiceUnavailable), [])
    else
      match Lookup(s.watched.router, key)
      case None => Reply(Err(RedisError), [])
      case Some(h) =>
        var conn := Connection(h, acq, Write(h, key.value, value));
        if acq == Refused then Reply(Err(RedisError), conn) else Reply(Ok(()), conn)
  }

  /** getString. `stored` is what Redis answers for the key. */
  function GetString(s: Service, key: Option<string>, acq: Acquisition, stored: Option<string>)
    : (rep: Reply<Option<string>>)
    requires s.watched.router.partitionMask != 0
    ensures !IsServiceReadyToWork(s) ==> rep == Reply(Err(ServiceUnavailable), [])
    ensures IsServiceReadyToWork(s) && Lookup(s.watched.router, key).None? ==> rep == Reply(Err(RedisError), [])
    ensures IsServiceReadyToWork(s) && Lookup(s.watched.router, key).Some? ==>
              var h := Lookup(s.watched.router, key).value;
              && key.Some?
              && |rep.conn| >= 2 && rep.conn[0] == Acquire(h)
              && rep.conn[|rep.conn| - 1] == Release(h)
              && multiset(rep.conn)[Release(h)] == 1
              && (rep.result.Err? <==> acq == Refused)
              && (rep.result.Err? ==> rep.result.error == RedisError)
              && rep.conn == [Acquire(h)] + (if acq == Granted then [Read(h, key.value)] else []) + [Release(h)]
              && (acq == Granted ==> rep.result == Ok(stored) && Read(h, key.value) in rep.conn)
              && (acq == Interrupted ==> rep.result == Ok(None) && Read(h, key.value) !in rep.conn)
  {
    if !IsServiceReadyToWork(s) then Reply(Err(ServiceUnavailable), [])
    else
      match Lookup(s.watched.router, key)
      case None => Reply(Err(RedisError), [])
      case Some(h) =>
        var conn := Connection(h, acq, Read(h, key.value));
        if acq == Refused then Reply(Err(RedisError), conn)
        else if acq == Granted then Reply(Ok(stored), conn)
        else Reply(Ok(None), conn)
  }

  // ---------------------------------------------------------------------
  // Whole-service runs
  // ---------------------------------------------------------------------

  /** One step of the service: a lifecycle call, a config callback or an
      orchestration callback (requests change no state). */
  datatype Op =
    | OpStart
    | OpStop
    | OpStartManage
    | OpStopManage
    | OpConfig(configState: Option<ConfigState>, valid: bool)
    | OpOrchestration(orchestrationState: OrchestrationState, dep: Option<DependenceData>)

  ghost function Apply(s: Service, op: Op): Service {
    match op
    case OpStart => Start(s)
    case OpStop => Stop(s)
    case OpStartManage => StartManageService(s)
    case OpStopManage => StopManageService(s)
    case OpConfig(st, valid) => HandleServiceConfigChange(s, st, valid)
    case OpOrchestration(st, dep) => HandleServiceStateChange(s, st, dep)
  }

  ghost function Run(s: Service, ops: seq<Op>): Service
    decreases |ops|
  {
    if |ops| == 0 then s else Run(Apply(s, ops[0]), ops[1..])
  }

  /** How many times `c` was called. */
  function Count(calls: seq<ExternalCall>, c: ExternalCall): nat {
    multiset(calls)[c]
  }

  /** The calls on each collaborator alternate start, stop, start, ...:
      the config client has been started once more than stopped exactly
      while the service runs, and the orchestration client exactly while
      the service is configured. */
  ghost predicate Balanced(s: Service) {
    && Count(s.calls, ConfigClientStart) == Count(s.calls, ConfigClientStop) + (if s.isRunning then 1 else 0)
    && Count(s.calls, OrchestrationClientStart) == Count(s.calls, OrchestrationClientStop) + (if s.isConfiged then 1 else 0)
  }

  ghost predicate Inv(s: Service) {
    Balanced(s) && Watcher.Inv(s.watched)
  }

  lemma InitialInv(serviceData: ServiceData)
    ensures Inv(Initial(serviceData))
  {
    PartitionRouter.InitialValid();
  }

  lemma ApplyKeepsInv(s: Service, op: Op)
    requires Inv(s)
    ensures Inv(Apply(s, op))
  {
    match op
    case OpOrchestration(st, dep) => HandleKeepsInv(s.watched, st, dep);
    case _ =>
  }

  /** Along any run the service never starts or stops a collaborator twice
      in a row, and the router and watcher invariants hold throughout; so a
      request always finds a mask it can divide by. */
  lemma {:induction false} RunKeepsInv(s: Service, ops: seq<Op>)
    requires Inv(s)
    ensures Inv(Run(s, ops))
    ensures Run(s, ops).watched.router.partitionMask != 0
    decreases |ops|
  {
    if |ops| > 0 {
      ApplyKeepsInv(s, ops[0]);
      RunKeepsInv(Apply(s, ops[0]), ops[1..]);
    }
  }

  /** A request is refused with ServiceUnavailable exactly when the gate is
      shut, whatever the key and the router hold, and then no client is
      touched. */
  lemma GateComesFirst(s: Service, key: Option<string>, value: Option<string>, acq: Acquisition, stored: Option<string>)
    requires s.watched.router.partitionMask != 0
    ensures SetString(s, key, value, acq).result == Err(ServiceUnavailable) <==> !IsServiceReadyToWork(s)
    ensures !IsServiceReadyToWork(s) ==> SetString(s, key, value, acq).conn == []
    ensures GetString(s, key, acq, stored).result == Err(ServiceUnavailable) <==> !IsServiceReadyToWork(s)
    ensures !IsServiceReadyToWork(s) ==> GetString(s, key, acq, stored).conn == []
  {
  }

  /** The gate reads only the two flags, not the watcher: once a NOTREADY
      event has cleared the router of a running, configured service, a
      request fails with RedisError rather than ServiceUnavailable. */
  lemma NotReadyWatcherGivesRedisError(s: Service, dep: Option<DependenceData>, key: Option<string>, acq: Acquisition, stored: Option<string>)
    requires IsServiceReadyToWork(s) && s.watched.curState == READY
    ensures var s' := HandleServiceStateChange(s, NOTREADY, dep);
      && s'.watched.router.partitionMask != 0
      && GetString(s', key, acq, stored) == Reply(Err(RedisError), [])
  {
  }
}

=== FILE: watcher.dfy ===
/** The orchestration watcher: the state machine that reacts to the
    orchestration client's state events by rebuilding or clearing the
    partition router. */
module Watcher {
  import opened Options
  import opened ZNode
  import opened PartitionRouter

  /** OrchestrationServiceState. DEPCHANGE is an event only: the watcher's
      own state is always READY or NOTREADY. */
  datatype OrchestrationState = READY | NOTREADY | DEPCHANGE

  /** The watcher's state and the router it drives. */
  datatype Watched = Watched(curState: OrchestrationState, router: Router)

  function Initial(): Watched {
    Watched(NOTREADY, PartitionRouter.Initial())
  }

  /** The invariant of the watcher: its state is never DEPCHANGE, and the
      router is valid. */
  ghost predicate Inv(w: Watched) {
    w.curState != DEPCHANGE && Valid(w.router)
  }

  /** handleServiceStateChange. `dep` is the snapshot the orchestration
      client hands out when a rebuild asks for it. A READY event from
      NOTREADY rebuilds, a NOTREADY event from READY clears, a DEPCHANGE
      event rebuilds whatever the current state, and everything else is
      ignored. A `null` state event is ignored too (the comparisons are by
      reference), which is the same as no event, so it is not modelled. */
  ghost function HandleServiceStateChange(w: Watched, state: OrchestrationState, dep: Option<DependenceData>)
    : (w': Watched)
    ensures w'.curState != DEPCHANGE <==> w.curState != DEPCHANGE
    ensures w'.curState != w.curState <==> {state, w.curState} == {READY, NOTREADY}
    ensures state == READY && w.curState == NOTREADY ==> w'.router == Rebuild(w.router, dep)
    ensures state == NOTREADY && w.curState == READY ==> w'.router == Clear(w.router)
    ensures state == DEPCHANGE ==> w'.router == Rebuild(w.router, dep)
    ensures state != DEPCHANGE && state == w.curState ==> w' == w
  {
    if state == READY && w.curState == NOTREADY then
      Watched(READY, Rebuild(w.router, dep))
    else if state == NOTREADY && w.curState == READY then
      Watched(NOTREADY, Clear(w.router))
    else if state == DEPCHANGE then
      w.(router := Rebuild(w.router, dep))
    else
      w
  }

  /** Every event keeps the watcher's invariant. */
  lemma HandleKeepsInv(w: Watched, state: OrchestrationState, dep: Option<DependenceData>)
    requires Inv(w)
    ensures Inv(HandleServiceStateChange(w, state, dep))
  {
    RebuildValid(w.router, dep);
    ClearValid(w.router);
  }

  /** A run of events, each with the snapshot current at its delivery. */
  datatype Event = Event(state: OrchestrationState, dep: Option<DependenceData>)

  ghost function Run(w: Watched, events: seq<Event>): Watched
    decreases |events|
  {
    if |events| == 0 then w
    else Run(HandleServiceStateChange(w, events[0].state, events[0].dep), events[1..])
  }

  /** Any run of events keeps the invariant: the watcher state stays READY
      or NOTREADY and the router stays valid. */
  lemma {:induction false} RunKeepsInv(w: Watched, events: seq<Event>)
    requires Inv(w)
    ensures Inv(Run(w, events))
    decreases |events|
  {
    if |events| > 0 {
      HandleKeepsInv(w, events[0].state, events[0].dep);
      RunKeepsInv(HandleServiceStateChange(w, events[0].state, events[0].dep), events[1..]);
    }
  }

  /** A repeated READY or NOTREADY event is a no-op. */
  lemma RepeatedEventIgnored(w: Watched, state: OrchestrationState, dep1: Option<DependenceData>, dep2: Option<DependenceData>)
    requires w.curState != DEPCHANGE && state != DEPCHANGE
    ensures var w1 := HandleServiceStateChange(w, state, dep1);
      HandleServiceStateChange(w1, state, dep2) == w1
  {
  }

  /** Going from READY to NOTREADY leaves no key resolvable. */
  lemma NotReadyUnroutes(w: Watched, dep: Option<DependenceData>, key: Option<string>)
    requires w.curState == READY
    ensures HandleServiceStateChange(w, NOTREADY, dep).router.partitionMask != 0
    ensures Lookup(HandleServiceStateChange(w, NOTREADY, dep).router, key).None?
  {
  }

  /** A DEPCHANGE while NOTREADY still rebuilds: with a usable snapshot the
      watcher stays NOTREADY yet the router holds clients afterwards. */
  lemma DepChangeWhileNotReady(w: Watched, dep: Option<DependenceData>)
    requires w.curState == NOTREADY
    requires Snapshot(dep).Some? && |Snapshot(dep).value.observed| > 0
    ensures HandleServiceStateChange(w, DEPCHANGE, dep).curState == NOTREADY
    ensures HandleServiceStateChange(w, DEPCHANGE, dep).router.registry != map[]
  {
    var d := Snapshot(dep).value.observed[0];
    assert d in HandleServiceStateChange(w, DEPCHANGE, dep).router.registry;
  }
}

=== FILE: znode.dfy ===
/** The service-discovery records the router consumes: the identity of a
    registered Redis instance and the dependence snapshot handed out by the
    orchestration client. */
module ZNode {
  import opened Options

  /** A registered service instance (ZNodeServiceData). Two instances are
      the same node exactly when all five fields agree. */
  datatype ServiceData = ServiceData(
    ip: string,
    serviceGroupName: string,
    serviceName: string,
    port: int,
    rootUrl: string)

  /** One entry of the Redis decorate's serviceName -> partitions map. */
  datatype PartitionClaim = PartitionClaim(serviceName: string, partitions: set<int>)

  /** The REDIS decorate of a dependence snapshot. Its map may be `null`;
      otherwise it is given as its entries in iteration order. */
  datatype RedisDecorate = RedisDecorate(serviceNameToPartitions: Option<seq<PartitionClaim>>)

  /** A dependence snapshot (ZNodeDependenceData): the optional REDIS
      decorate, and the instances of each dependence group, each group's set
      given in its iteration order. */
  datatype DependenceData = DependenceData(
    redisDecorate: Option<RedisDecorate>,
    dependence: map<string, seq<ServiceData>>)

  /** The dependence group holding the Redis instances. */
  const REDIS_SERVICE_GROUP_KEY: string := "redis"

  /** What a rebuild needs from a snapshot: the observed Redis instances and
      the partition claims. */
  datatype RedisSnapshot = RedisSnapshot(observed: seq<ServiceData>, claims: seq<PartitionClaim>)

  /** The four guards at the head of a rebuild: a `null` snapshot, a missing
      REDIS decorate, a `null` partition map or a missing "redis" group
      each yield no usable snapshot. */
  function Snapshot(dep: Option<DependenceData>): Option<RedisSnapshot>
  {
    if dep.None? then None
    else if dep.value.redisDecorate.None? then None
    else if dep.value.redisDecorate.value.serviceNameToPartitions.None? then None
    else if REDIS_SERVICE_GROUP_KEY !in dep.value.dependence then None
    else Some(RedisSnapshot(
      dep.value.dependence[REDIS_SERVICE_GROUP_KEY],
      dep.value.redisDecorate.value.serviceNameToPartitions.value))
  }

  /** Each instance is listed at most once. */
  predicate NoDuplicates<T(==)>(s: seq<T>) {
    forall i, j :: 0 <= i < j < |s| ==> s[i] != s[j]
  }
}
